=== FILE: README.md ===
# PoE-HarvestScanner scan pipeline in Dafny

PoE-HarvestScanner reads a screenshot of the Path of Exile Harvest crafting
bench and lists the crafts on offer. Its Angular component `AppComponent`
does four things:

- places a default crop rectangle on the screenshot (`cropperReady`);
- cuts the craft-text column out of the crop (`imageCropped`);
- hands the column to an OCR worker (`doOCR`);
- turns the recognised lines into a list of craft entries.

This project models the pure parts of that pipeline and proves properties
of the model:

- **`text.dfy`** (`Text`): ECMAScript whitespace (the set shared by
  `String.prototype.trim` and the regular-expression class `\s`), trimming,
  `Array.prototype.join`, and a generic `Map`.
- **`cleaning.dfy`** (`Cleaning`): the cleaner applied to each entry,
  `c.replace(/\r|\n/g, " ").replace(/\s+/g, " ").trim()`. It also gives an
  independent description of the cleaner as "the words of the entry joined
  by single spaces", and proves the two equal.
- **`segmentation.dfy`** (`Segmentation`): recognised words and lines, the
  confidence filter, the line text, and the 20 trigger phrases. Segmentation
  is modelled as the left fold the loop performs (`SegmentFrom`/`Segment`).
  It also has a direct description (`Groups`, `GroupLines`): one entry per
  trigger line, made of that line and the non-trigger lines up to the next
  trigger line. The fold and the direct description are proved equal. Both
  loops of the recogniser callback are also written as methods, and proved
  to compute the fold.
- **`geometry.dfy`** (`Geometry`): the default cropper rectangle and the
  numbers of the `drawImage` call that isolates the craft column.
- **`scanner.dfy`** (`Scanner`): the component state the scan touches, the
  `x1 === 0` gate of `imageCropped`, the image/worker gate of `doOCR`, and
  the whole recognition step.

Modelling choices:

- The recogniser's output (a sequence of lines of `{text, confidence}`
  words) is a parameter.
- The canvas encoding of the cropped column (`toDataURL`) is a parameter,
  a function from the crop's `drawImage` numbers to a non-empty string.
- Recognition is asynchronous in the component. Here its effect is applied
  at once. A rejected `recognize` surfaces in a callback that nothing
  awaits, so the entries are left as they were and the status stays
  "Analyzing"; the model's `Failed` recognition does exactly that.
- An unset `imageUrl` is the empty string, which is falsy in JavaScript.
  Whether an OCR worker exists is a boolean.
- A line that comes before any trigger line has no entry to join. The
  source writes it to `crafts[-1]`, a property that `Array.prototype.map`
  never visits. So the line is lost, and the model drops it. The state "no
  entry yet" is the empty list of entries.
- The ratio arithmetic is done on exact `real`s. This idealises the
  source's IEEE doubles.
- `width / height > 3` follows double semantics when the height is 0. A
  positive width divided by zero gives Infinity, which counts as wide. 0/0
  gives NaN, which does not.
- A canvas dimension is an unsigned integer. So the craft canvas width
  `image.width * 0.7` is truncated when it is assigned, and the model
  truncates it too. The output width is therefore the integer part of the
  source width, not the source width itself.
- The default rectangle is strictly inside the image only when both sizes
  are positive. For a zero-width image `x1` and `x2`
  are 0. That is one of the cases the `imageCropped` gate rejects: the
  gate rejects every crop whose `x1` is 0, whatever the image.
- A line's text is the kept words each preceded by a space, then trimmed.
  That is the same as "the kept words joined by single spaces" exactly
  when that join has no whitespace at its ends, for instance when every
  kept word is a non-empty run without whitespace.
  - `LineTextJoinExactly` proves the if-and-only-if.
  - `LineTextJoinsWords` proves the join when every kept word is such a run.
  - `LineWords` proves, with no assumption, that the line text has exactly
    the whitespace-separated words of the kept words, in order.

## Model

| member | source | states |
|---|---|---|
| Text.IsWs | src/app/app.component.ts:186 | whitespace for `trim()` and `\s` is the ECMAScript set (`WhitespaceExamples` pins members and non-members) |
| Text.WhitespaceExamples | src/app/app.component.ts:196 | space, tab, LF, CR, NBSP, the ideographic space and the BOM are whitespace; "a", U+200B and U+0085 are not |
| Text.TrimStart | src/app/app.component.ts:186 | the result is a suffix of the input, everything removed is whitespace, and the result does not start with whitespace |
| Text.TrimEnd | src/app/app.component.ts:186 | the result is a prefix of the input, everything removed is whitespace, and the result does not end with whitespace |
| Text.Trim | src/app/app.component.ts:186 | `trim()` leaves no whitespace at either end, and gives "" exactly when the input is all whitespace |
| Text.TrimOfTight | src/app/app.component.ts:196 | trimming a string with no whitespace at its ends returns it unchanged |
| Text.TrimLeadingSpace | src/app/app.component.ts:183-186 | a space put in front of a string with no whitespace at its ends is removed again by `trim()` |
| Text.Map | src/app/app.component.ts:196 | `map` keeps the length and puts f of the k-th element at position k |
| Text.JoinSnoc | src/app/app.component.ts:183 | joining one more string appends the separator and that string |
| Cleaning.ReplaceBreaks | src/app/app.component.ts:196 | replacing CR and LF by spaces keeps the length, leaves no CR or LF, keeps every other character, and keeps whitespace where it was |
| Cleaning.Collapse | src/app/app.component.ts:196 | `replace(/\s+/g, " ")` never lengthens, is empty only for "", and starts or ends with whitespace exactly when its input does |
| Cleaning.CollapseIsCollapsed | src/app/app.component.ts:196 | after the collapse, every whitespace character is a single space with no whitespace next to it |
| Cleaning.CollapseReplaceBreaks | src/app/app.component.ts:196 | replacing line breaks before the collapse does not change the collapse's result |
| Cleaning.Clean | src/app/app.component.ts:196 | a cleaned entry has no CR or LF, no two adjacent whitespace characters, only plain spaces as whitespace, and no whitespace at either end |
| Cleaning.CleanAll | src/app/app.component.ts:196 | cleaning the list keeps its length and order: entry k becomes the cleaned entry k |
| Cleaning.WordsAreWords | src/app/app.component.ts:196 | every item of the word list is a non-empty run of non-whitespace characters |
| Cleaning.JoinWordsTight | src/app/app.component.ts:196 | words joined by spaces neither start nor end with whitespace |
| Cleaning.CleanIsJoinedWords | src/app/app.component.ts:196 | the cleaned entry equals the entry's whitespace-separated words, in order, joined by single spaces |
| Cleaning.CleanFixedPoints | src/app/app.component.ts:196 | cleaning returns a string unchanged exactly when it is already in cleaned form (both directions) |
| Cleaning.CleanIdempotent | src/app/app.component.ts:196 | cleaning twice gives the same as cleaning once |
| Cleaning.WordsTrim | src/app/app.component.ts:186 | trimming a text does not change its words |
| Cleaning.WordsSplit | src/app/app.component.ts:192 | a whitespace character between two texts separates their words: the words of the whole are those of the left part followed by those of the right |
| Cleaning.CleanMergedLine | src/app/app.component.ts:192-196 | cleaning an entry with a line appended after "\n" gives the entry's words followed by the line's words, joined by single spaces |
| Cleaning.CleanMergedEmptyLine | src/app/app.component.ts:192-196 | appending a line that kept no words does not change the cleaned entry |
| Segmentation.Kept | src/app/app.component.ts:178-184 | the confidence filter never lengthens a line (which words it keeps, and in what order, is stated by `KeptMembers` and `KeptAppend`) |
| Segmentation.KeptMembers | src/app/app.component.ts:178-184 | a word is kept exactly when it is in the line and its confidence is not below 60 |
| Segmentation.KeptAppend | src/app/app.component.ts:178-184 | the filter keeps order: filtering two pieces and concatenating equals filtering the concatenation |
| Segmentation.KeptOne | src/app/app.component.ts:179-183 | a single word is kept exactly when it is confident |
| Segmentation.LineText | src/app/app.component.ts:177-186 | a line's text has no whitespace at its ends, and it is "" when no word passes the filter |
| Segmentation.LineWords | src/app/app.component.ts:177-186 | the words of a line's text are exactly the words of its confident words, in order |
| Segmentation.LineTextJoinsWords | src/app/app.component.ts:177-186 | when each confident word is a single token, the line text is those words in order joined by single spaces |
| Segmentation.LineTextJoinExactly | src/app/app.component.ts:177-186 | the line text equals the confident words joined by single spaces exactly when that join has no whitespace at its ends (both directions) |
| Segmentation.SpacedJoin | src/app/app.component.ts:183 | the accumulated text is a space followed by the word texts joined by single spaces |
| Segmentation.LineTextOf | src/app/app.component.ts:177-186 | the inner loop plus `trim()` computes the line text, which has no whitespace at its ends and has the confident words' words |
| Segmentation.Spaced | src/app/app.component.ts:183 | the accumulated text is empty exactly when no word was kept, and otherwise starts with a space |
| Segmentation.IsTrigger | src/app/app.component.ts:166-187 | a line opens an entry when it starts with one of the 20 phrases followed by a space |
| Segmentation.TriggerExamples | src/app/app.component.ts:166-187 | "Corrupt item" and "Sacrifice a Corrupted Gem" open entries |
| Segmentation.LongerWordIsNoTrigger | src/app/app.component.ts:166-187 | "Corruptible item" does not open an entry: the phrase must be followed by a space |
| Segmentation.BarePhraseIsNoTrigger | src/app/app.component.ts:166-187 | a bare "Corrupt" does not open an entry |
| Segmentation.TriggerExtends | src/app/app.component.ts:187 | a trigger line stays a trigger line whatever is appended to it |
| Segmentation.StartsWithTrigger | src/app/app.component.ts:187 | the `some` loop over the phrases returns true exactly when the line starts with a phrase followed by a space |
| Segmentation.TriggerLines | src/app/app.component.ts:187 | the trigger lines are no more than the lines, all are trigger lines, and a text is among them exactly when it is a line and a trigger line |
| Segmentation.Step | src/app/app.component.ts:187-193 | a trigger line adds one entry equal to itself; another line keeps the count; no entry before the last changes |
| Segmentation.StepExtends | src/app/app.component.ts:189-192 | one step only lengthens entries: each old entry is a prefix of its new value |
| Segmentation.SegmentFrom | src/app/app.component.ts:175-194 | the loop adds exactly one entry per trigger line |
| Segmentation.Segment | src/app/app.component.ts:175-194 | the loop, started from no entries, yields exactly one entry per trigger line |
| Segmentation.RunLen | src/app/app.component.ts:187-192 | the leading run of non-trigger lines is as long as possible |
| Segmentation.SegmentFromConcat | src/app/app.component.ts:176-194 | running the loop over two pieces is running it over the first, then the second |
| Segmentation.SegmentAppendLine | src/app/app.component.ts:176-194 | reading one more line changes the entries exactly as one step does |
| Segmentation.SegmentNextLine | src/app/app.component.ts:187-193 | one more trigger line appends itself as an entry. One more non-trigger line appends "\n" and itself to the last entry and changes no other entry. Before any entry exists it is dropped |
| Segmentation.SegmentDropsLeading | src/app/app.component.ts:191-192 | non-trigger lines before the first trigger line leave no trace in the entries |
| Segmentation.SegmentFromShift | src/app/app.component.ts:189-192 | entries before the last one are never touched again |
| Segmentation.SegmentFromRun | src/app/app.component.ts:191-192 | a run of non-trigger lines extends the last entry by each line after a "\n" |
| Segmentation.SegmentFromAtTrigger | src/app/app.component.ts:189-190 | at a trigger line the entries so far are final |
| Segmentation.SegmentIsGroups | src/app/app.component.ts:175-194 | the loop's entries equal the direct description: per trigger line, that line followed by "\n" and each non-trigger line up to the next trigger line |
| Segmentation.GroupsStartWithTriggerLines | src/app/app.component.ts:187-192 | the direct description has one entry per trigger line, and entry k starts with the k-th trigger line |
| Segmentation.SegmentEntries | src/app/app.component.ts:187-192 | the entry count is the trigger-line count, entry k starts with the k-th trigger line, and every entry starts with a trigger phrase |
| Segmentation.GroupLinesAreGroups | src/app/app.component.ts:187-192 | each group of lines is one trigger line followed only by non-trigger lines |
| Segmentation.GroupLinesCover | src/app/app.component.ts:187-192 | the groups, concatenated, are exactly the lines from the first trigger line on, in order |
| Segmentation.GroupsAreEntries | src/app/app.component.ts:190-192 | each entry of the direct description is its group's lines, separated by "\n" |
| Segmentation.ContinuationWords | src/app/app.component.ts:192 | appending lines after "\n" appends their words |
| Segmentation.EntryWords | src/app/app.component.ts:190-192 | the words of an entry are the words of its lines, in order |
| Segmentation.SegmentLines | src/app/app.component.ts:175-194 | the outer loop computes the fold over the line texts, with one entry per trigger line, each a trigger line |
| Geometry.IsWide | src/app/app.component.ts:113 | the ratio test follows double semantics when the height is 0: a positive width is wide (Infinity > 3), a zero width is not (NaN > 3 is false) |
| Geometry.IsWideExamples | src/app/app.component.ts:113 | 4:1 is wide and 3:1 is not; a positive width over a zero height is wide and 0/0 is not |
| Geometry.CropperStart | src/app/app.component.ts:109-124 | for positive sizes the rectangle is strictly inside the image. For a wide image its right edge lies in the left half. `x1` is 0 exactly for a zero width. Its height is 45% of the image height |
| Geometry.WideUsesLeftHalf | src/app/app.component.ts:113-116 | for every wide image, however wide, `x1` and `x2` are those of any image of half its width that is not itself wide; with the same height the whole rectangle matches |
| Geometry.HalfHasNarrowCompanion | src/app/app.component.ts:113 | such a not-wide half-width image always exists (height equal to the full width), so the rule above applies to every wide image |
| Geometry.CropperScales | src/app/app.component.ts:109-124 | scaling the image by c scales every coordinate of the rectangle by c |
| Geometry.WideByProduct | src/app/app.component.ts:113 | for a positive height, width/height > 3 exactly when width > 3·height |
| Geometry.CropperRowsIgnoreWidth | src/app/app.component.ts:120-122 | `y1` and `y2` never depend on the width |
| Geometry.ColumnCrop | src/app/app.component.ts:86-99 | the copied column starts at 16% of the width and lies inside the image. It leaves the level column's 14% to its right. It takes the full height. The canvas width is the integer part of the source width |
| Scanner.CraftList | src/app/app.component.ts:175-196 | the shown list has one entry per trigger line, each in cleaned form |
| Scanner.CleanAllNormal | src/app/app.component.ts:196 | every cleaned entry is in cleaned form |
| Scanner.DoOcr | src/app/app.component.ts:153-196 | the status becomes "Analyzing". Without an image or a worker, or when recognition is rejected, nothing else changes. Otherwise the entries become the cleaned segmentation of the recognised lines (`CraftList`), one cleaned entry per trigger line |
| Scanner.ImageCropped | src/app/app.component.ts:62-106 | with `x1` = 0 the state is unchanged. Otherwise the image becomes the encoding of the column crop of the cropped image (16% to 86% of its width, full height) and recognition runs: with a worker and recognised lines the entries are replaced, otherwise they are kept |
| Scanner.StartedCropperPassesGate | src/app/app.component.ts:63-65 | a cropper placed by `cropperReady` on an image without width is ignored; on any other image the encoded column crop becomes the image to recognise |
| Scanner.CraftListIsGroupWords | src/app/app.component.ts:175-196 | shown entry k is the words of the k-th group of lines joined by single spaces |
| Scanner.RunOcr | src/app/app.component.ts:153-196 | the two loops and the `map` compute the recognition step, keeping the image and the worker |

## Left out

- Canvas compositing (white fill, luminosity, difference) and `toDataURL`. These are browser pixel operations; the encoded column is a parameter.
- The Tesseract worker: creation, loading, language setup, the character whitelist, `recognize` and the progress logger. The recognised lines are a parameter, and the worker is a present/absent flag.
- Progress-bar state (`progressMode`, `progressValue`), `console.log`, NgZone scheduling, paste handling, `Image` loading and object URLs. These are UI and asynchronous plumbing.
- `src/app/app.module.ts`. It only wires Angular modules.
- IEEE-754 rounding. The ratios are exact reals, so for example `1 - 0.7 - 0.16` is exactly 0.14 here.
- Geometry.ColumnCrop: the canvas width is the integer part of the exact product `w * 0.7`, not of its double. In doubles the product falls just below a whole number for some widths, for example 90, 170, 180, 700 and 720, so the browser's canvas is one pixel narrower there (489 rather than 490 for a 700-pixel crop). The width is also not reduced modulo 2^32 when it is assigned; no screenshot comes near that size.
- UTF-16: strings are sequences of characters, and surrogate pairs are not modelled. Every whitespace character JavaScript knows is in the basic plane.
- The order in which trigger phrases are tried. `some` returns only a boolean, so the order cannot change the result.

=== FILE: cleaning.dfy ===
/**
  The text cleaner applied to every segmented craft entry:
  `c.replace(/\r|\n/g, " ").replace(/\s+/g, " ").trim()`.

  The three steps are modelled one by one (`ReplaceBreaks`, `Collapse`,
  `Trim`), and the result is characterised independently as the entry's
  whitespace-separated words joined by single spaces.
*/
module Cleaning {
  import opened Text

  /** Every whitespace character is a plain space and no two whitespace
      characters are adjacent. */
  predicate Collapsed(s: string) {
    && (forall i :: 0 <= i < |s| && IsWs(s[i]) ==> s[i] == ' ')
    && (forall i :: 0 <= i < |s| - 1 ==> !WsPair(s, i))
  }

  /** Positions `i` and `i + 1` of `s` both hold whitespace. */
  predicate WsPair(s: string, i: nat)
    requires i + 1 < |s|
  {
    IsWs(s[i]) && IsWs(s[i + 1])
  }

  /** The shape every cleaned entry has. */
  predicate Normal(s: string) {
    Collapsed(s) && Tight(s)
  }

  predicate IsBreak(c: char) {
    c == '\r' || c == '\n'
  }

  /** `.replace(/\r|\n/g, " ")`: line breaks become spaces, nothing else moves. */
  function ReplaceBreaks(s: string): (r: string)
    ensures |r| == |s|
    ensures forall i :: 0 <= i < |s| ==> !IsBreak(r[i])
    ensures forall i :: 0 <= i < |s| ==> (IsWs(r[i]) <==> IsWs(s[i]))
    ensures forall i :: 0 <= i < |s| && !IsBreak(s[i]) ==> r[i] == s[i]
  {
    seq(|s|, i requires 0 <= i < |s| => if IsBreak(s[i]) then ' ' else s[i])
  }

  /** `.replace(/\s+/g, " ")`: every maximal run of whitespace becomes one
      space. The result is empty only for "", and it starts (ends) with
      whitespace exactly when `s` does; `CollapseIsCollapsed` shows that
      it is collapsed. */
  function Collapse(s: string): (r: string)
    ensures |r| <= |s|
    ensures r == [] <==> s == []
    ensures r != [] ==> (IsWs(r[0]) <==> IsWs(s[0]))
    ensures r != [] ==> (IsWs(r[|r| - 1]) <==> IsWs(s[|s| - 1]))
    decreases |s|
  {
    if s == [] then
      []
    else if IsWs(s[0]) then
      var t := TrimStart(s);
      assert t != [] ==> t[|t| - 1] == s[|s| - 1];
      " " + Collapse(t)
    else
      var c := Collapse(s[1..]);
      assert c != [] ==> c[|c| - 1] == ([s[0]] + c)[|c|];
      [s[0]] + c
  }

  /** No run of whitespace survives `Collapse`, and every whitespace
      character left is a plain space. */
  lemma {:induction false} CollapseIsCollapsed(s: string)
    ensures Collapsed(Collapse(s))
    decreases |s|
  {
    if s != [] {
      if IsWs(s[0]) {
        var t := TrimStart(s);
        CollapseIsCollapsed(t);
        ConsCollapsed(' ', Collapse(t));
      } else {
        CollapseIsCollapsed(s[1..]);
        ConsCollapsed(s[0], Collapse(s[1..]));
      }
    }
  }

  /** Putting a character in front of a collapsed string keeps it collapsed,
      unless that makes two whitespace characters meet. */
  lemma ConsCollapsed(c: char, t: string)
    requires Collapsed(t)
    requires IsWs(c) ==> c == ' ' && (t == [] || !IsWs(t[0]))
    ensures Collapsed([c] + t)
  {
    var r := [c] + t;
    forall i | 0 <= i < |r| - 1
      ensures !WsPair(r, i)
    {
      if i > 0 {
        assert WsPair(r, i) == WsPair(t, i - 1);
      }
    }
  }

  /** The whole cleaning step for one entry. The result has no line breaks,
      no whitespace other than single spaces between non-blank characters,
      and no whitespace at either end. */
  function Clean(s: string): (r: string)
    ensures Normal(r)
    ensures forall i :: 0 <= i < |r| ==> !IsBreak(r[i])
  {
    var c := Collapse(ReplaceBreaks(s));
    CollapseIsCollapsed(ReplaceBreaks(s));
    TrimCollapsed(c);
    Trim(c)
  }

  /** Trimming a collapsed string leaves a normal one without line breaks. */
  lemma TrimCollapsed(c: string)
    requires Collapsed(c)
    ensures Normal(Trim(c))
    ensures forall i :: 0 <= i < |Trim(c)| ==> !IsBreak(Trim(c)[i])
  {
    var t := TrimStart(c);
    var r := TrimEnd(t);
    CollapsedSuffix(c, t);
    CollapsedPrefix(t, r);
  }

  lemma CollapsedSuffix(c: string, t: string)
    requires Collapsed(c) && |t| <= |c| && t == c[|c| - |t|..]
    ensures Collapsed(t) && forall i :: 0 <= i < |t| ==> !IsBreak(t[i])
  {
    CollapsedSlice(c, |c| - |t|, t);
  }

  lemma CollapsedPrefix(t: string, r: string)
    requires Collapsed(t) && |r| <= |t| && r == t[..|r|]
    ensures Collapsed(r)
  {
    CollapsedSlice(t, 0, r);
  }

  /** A slice of a collapsed string is collapsed and has no line breaks. */
  lemma CollapsedSlice(c: string, k: nat, r: string)
    requires Collapsed(c) && k + |r| <= |c| && r == c[k..k + |r|]
    ensures Collapsed(r)
    ensures forall i :: 0 <= i < |r| ==> !IsBreak(r[i])
  {
    assert forall i :: 0 <= i < |r| ==> r[i] == c[k + i];
    forall i | 0 <= i < |r| - 1
      ensures !WsPair(r, i)
    {
      assert WsPair(r, i) == WsPair(c, k + i);
    }
  }

  /** Every entry cleaned, in order (`Array.prototype.map`). */
  function CleanAll(entries: seq<string>): (r: seq<string>)
    ensures |r| == |entries| && forall k :: 0 <= k < |r| ==> r[k] == Clean(entries[k])
  {
    Map(Clean, entries)
  }

  /* ---------------------------------------------------------------------
     Words: the independent description of what cleaning keeps.
     --------------------------------------------------------------------- */

  /** Length of the leading run of non-whitespace characters. */
  function TokenLen(s: string): (n: nat)
    ensures n <= |s|
    ensures forall i :: 0 <= i < n ==> !IsWs(s[i])
    ensures n == |s| || IsWs(s[n])
  {
    if s == [] || IsWs(s[0]) then 0 else 1 + TokenLen(s[1..])
  }

  /** A non-empty run of non-whitespace characters. */
  predicate IsWord(w: string) {
    w != [] && forall i :: 0 <= i < |w| ==> !IsWs(w[i])
  }

  /** The maximal runs of non-whitespace characters of `s`, in order. */
  function Words(s: string): seq<string>
    decreases |s|
  {
    var t := TrimStart(s);
    if t == [] then [] else [t[..TokenLen(t)]] + Words(t[TokenLen(t)..])
  }

  predicate AllWords(ws: seq<string>) {
    forall k :: 0 <= k < |ws| ==> IsWord(ws[k])
  }

  /** Every item of `Words(s)` is a non-empty run without whitespace. */
  lemma {:induction false} WordsAreWords(s: string)
    ensures AllWords(Words(s))
    decreases |s|
  {
    var t := TrimStart(s);
    if t != [] {
      var n := TokenLen(t);
      WordsAreWords(t[n..]);
      FirstWord(t);
      AllWordsCons(t[..n], Words(t[n..]));
    }
  }

  lemma AllWordsCons(w: string, ws: seq<string>)
    requires IsWord(w) && AllWords(ws)
    ensures AllWords([w] + ws)
  {
    forall k | 0 <= k < |[w] + ws|
      ensures IsWord(([w] + ws)[k])
    {
      if k > 0 {
        assert ([w] + ws)[k] == ws[k - 1];
      }
    }
  }

  lemma FirstWord(t: string)
    requires t != [] && !IsWs(t[0])
    ensures IsWord(t[..TokenLen(t)])
  {
  }

  /* ---------------------------------------------------------------------
     Lemmas
     --------------------------------------------------------------------- */

  lemma ReplaceBreaksTail(s: string)
    requires s != []
    ensures ReplaceBreaks(s)[1..] == ReplaceBreaks(s[1..])
  {
  }

  lemma {:induction false} TrimStartReplaceBreaks(s: string)
    ensures TrimStart(ReplaceBreaks(s)) == ReplaceBreaks(TrimStart(s))
    decreases |s|
  {
    if s != [] && IsWs(s[0]) {
      ReplaceBreaksTail(s);
      TrimStartReplaceBreaks(s[1..]);
    }
  }

  /** Turning line breaks into spaces first does not change what the
      whitespace collapse produces. */
  lemma {:induction false} CollapseReplaceBreaks(s: string)
    ensures Collapse(ReplaceBreaks(s)) == Collapse(s)
    decreases |s|
  {
    if s != [] {
      var b := ReplaceBreaks(s);
      if IsWs(s[0]) {
        TrimStartReplaceBreaks(s);
        CollapseReplaceBreaks(TrimStart(s));
      } else {
        ReplaceBreaksTail(s);
        CollapseReplaceBreaks(s[1..]);
      }
    }
  }

  /** A leading word passes through the collapse untouched. */
  lemma CollapseToken(s: string)
    requires s != [] && !IsWs(s[0])
    ensures Collapse(s) == s[..TokenLen(s)] + Collapse(s[TokenLen(s)..])
  {
    var n := TokenLen(s);
    assert s == s[..n] + s[n..];
    CollapseWord(s[..n], s[n..]);
  }

  lemma {:induction false} CollapseWord(w: string, rest: string)
    requires forall i :: 0 <= i < |w| ==> !IsWs(w[i])
    requires rest == [] || IsWs(rest[0])
    ensures Collapse(w + rest) == w + Collapse(rest)
    decreases |w|
  {
    if w == [] {
      assert w + rest == rest;
    } else {
      CollapseWord(w[1..], rest);
      ConsSplit(w, rest);
      CollapseWordStep(w[0], w[1..], rest);
    }
  }

  lemma CollapseWordStep(c: char, a: string, rest: string)
    requires !IsWs(c)
    requires Collapse(a + rest) == a + Collapse(rest)
    ensures Collapse([c] + (a + rest)) == ([c] + a) + Collapse(rest)
  {
    CollapseCons(c, a + rest);
    ConcatAssoc([c], a, Collapse(rest));
  }

  lemma CollapseCons(c: char, t: string)
    requires !IsWs(c)
    ensures Collapse([c] + t) == [c] + Collapse(t)
  {
    var s := [c] + t;
    assert s[0] == c && s[1..] == t;
  }

  lemma TrimStartCollapse(s: string)
    ensures TrimStart(Collapse(s)) == Collapse(TrimStart(s))
  {
    if s != [] && IsWs(s[0]) {
      var c := Collapse(TrimStart(s));
      TrimStartOfTight(c);
      assert (" " + c)[1..] == c;
    } else {
      TrimStartOfTight(Collapse(s));
    }
  }

  lemma WordsTrimStart(s: string)
    ensures Words(TrimStart(s)) == Words(s)
  {
    TrimStartOfTight(TrimStart(s));
  }

  /** Text made only of whitespace has no words. */
  lemma BlankWords(b: string)
    requires forall i :: 0 <= i < |b| ==> IsWs(b[i])
    ensures Words(b) == []
  {
  }

  lemma WordsTrimEnd(s: string)
    ensures Words(TrimEnd(s)) == Words(s)
  {
    var r := TrimEnd(s);
    if |r| < |s| {
      var b := s[|r| + 1..];
      assert s == r + [s[|r|]] + b;
      assert forall i :: 0 <= i < |b| ==> b[i] == s[|r| + 1 + i];
      WordsSplit(r, s[|r|], b);
      BlankWords(b);
      AppendEmpty(Words(r), []);
    }
  }

  /** Trimming does not change the words of a text. */
  lemma WordsTrim(s: string)
    ensures Words(Trim(s)) == Words(s)
  {
    WordsTrimEnd(TrimStart(s));
    WordsTrimStart(s);
  }

  /** A single word is its own list of words. */
  lemma WordsOfWord(w: string)
    requires IsWord(w)
    ensures Words(w) == [w]
  {
    TrimStartOfTight(w);
    assert TokenLen(w) == |w|;
    assert w[..|w|] == w;
    AppendEmpty([w], []);
  }

  /** Text starting with a word: that word, then the words after it. */
  lemma WordsCons(s: string)
    requires s != [] && !IsWs(s[0])
    ensures Words(s) == [s[..TokenLen(s)]] + Words(s[TokenLen(s)..])
  {
    TrimStartOfTight(s);
  }

  /** Words joined by spaces neither start nor end with whitespace. */
  lemma {:induction false} JoinWordsTight(xs: seq<string>)
    requires xs != [] && forall k :: 0 <= k < |xs| ==> IsWord(xs[k])
    ensures JoinWith(xs, " ") != [] && Tight(JoinWith(xs, " "))
    decreases |xs|
  {
    if |xs| > 1 {
      JoinWordsTight(xs[1..]);
      TightJoin(xs[0], JoinWith(xs[1..], " "));
    } else {
      assert xs[0][|xs[0]| - 1] in xs[0];
    }
  }

  lemma TightJoin(x: string, y: string)
    requires x != [] && !IsWs(x[0]) && y != [] && Tight(y)
    ensures Tight(x + " " + y)
  {
    var z := x + " " + y;
    assert z[0] == x[0] && z[|z| - 1] == y[|y| - 1];
  }

  lemma JoinCons(w: string, ws: seq<string>)
    requires ws != []
    ensures JoinWith([w] + ws, " ") == w + " " + JoinWith(ws, " ")
  {
    assert ([w] + ws)[1..] == ws;
  }

  /** For text that does not start with whitespace, dropping the trailing
      whitespace of the collapsed text leaves its words joined by spaces. */
  lemma {:induction false} CollapseIsJoinedWords(s: string)
    requires s == [] || !IsWs(s[0])
    ensures TrimEnd(Collapse(s)) == JoinWith(Words(s), " ")
    decreases |s|
  {
    if s != [] {
      var t2 := TrimStart(s[TokenLen(s)..]);
      if t2 != [] {
        CollapseIsJoinedWords(t2);
      }
      FirstWordStep(s);
    }
  }

  /** The inductive step of `CollapseIsJoinedWords`, given its claim for
      the text after the first word and the whitespace that follows it. */
  lemma FirstWordStep(s: string)
    requires s != [] && !IsWs(s[0])
    requires var t2 := TrimStart(s[TokenLen(s)..]);
      t2 != [] ==> TrimEnd(Collapse(t2)) == JoinWith(Words(t2), " ")
    ensures TrimEnd(Collapse(s)) == JoinWith(Words(s), " ")
  {
    var n := TokenLen(s);
    CollapseToken(s);
    WordsCons(s);
    FirstWordTight(s);
    if n == |s| {
      OnlyWord(s[..n], s[n..]);
    } else {
      WordsTrimStart(s[n..]);
      LastWordStep(s[..n], s[n..], TrimStart(s[n..]));
    }
  }

  lemma FirstWordTight(s: string)
    requires s != [] && !IsWs(s[0])
    ensures Tight(s[..TokenLen(s)]) && s[..TokenLen(s)] != []
  {
    var n := TokenLen(s);
    assert s[..n][0] == s[0] && s[..n][n - 1] == s[n - 1];
  }

  lemma OnlyWord(tok: string, rest: string)
    requires Tight(tok) && rest == []
    ensures TrimEnd(tok + Collapse(rest)) == JoinWith([tok] + Words(rest), " ")
  {
    TrimEndOfTight(tok);
    AppendEmpty(tok, []);
    AppendEmpty([tok], []);
  }

  /** One step of the induction above: a word, then a run of whitespace,
      then the rest `t2` of the text. */
  lemma LastWordStep(tok: string, rest: string, t2: string)
    requires Tight(tok) && tok != []
    requires rest != [] && IsWs(rest[0]) && t2 == TrimStart(rest)
    requires Words(rest) == Words(t2)
    requires t2 != [] ==> TrimEnd(Collapse(t2)) == JoinWith(Words(t2), " ")
    ensures TrimEnd(tok + Collapse(rest)) == JoinWith([tok] + Words(rest), " ")
  {
    assert Collapse(rest) == " " + Collapse(t2);
    if t2 == [] {
      TrailingBlank(tok, Words(rest));
    } else {
      WordThenMore(tok, t2, Words(rest));
    }
  }

  lemma TrailingBlank(tok: string, ws: seq<string>)
    requires Tight(tok) && tok != [] && ws == []
    ensures TrimEnd(tok + (" " + Collapse([]))) == JoinWith([tok] + ws, " ")
  {
    assert tok + (" " + Collapse([])) == tok + " ";
    assert (tok + " ")[..|tok|] == tok;
    TrimEndOfTight(tok);
    AppendEmpty([tok], ws);
  }

  lemma WordThenMore(tok: string, t2: string, ws: seq<string>)
    requires Tight(tok) && tok != []
    requires t2 != [] && !IsWs(t2[0]) && ws == Words(t2)
    requires TrimEnd(Collapse(t2)) == JoinWith(ws, " ")
    ensures TrimEnd(tok + (" " + Collapse(t2))) == JoinWith([tok] + ws, " ")
  {
    var c2 := Collapse(t2);
    assert HasText(c2) by { assert !IsWs(c2[0]); }
    TrimEndAppend(tok + " ", c2);
    ConcatAssoc(tok, " ", c2);
    assert ws != [] by { TrimStartOfTight(t2); }
    JoinCons(tok, ws);
  }

  /** Reference description of the cleaner: the cleaned entry is exactly the
      entry's words, in order, separated by single spaces. */
  lemma CleanIsJoinedWords(s: string)
    ensures Clean(s) == JoinWith(Words(s), " ")
  {
    CollapseReplaceBreaks(s);
    TrimStartCollapse(s);
    CollapseIsJoinedWords(TrimStart(s));
    WordsTrimStart(s);
  }

  lemma {:induction false} CollapseOfCollapsed(s: string)
    requires Collapsed(s)
    ensures Collapse(s) == s
    decreases |s|
  {
    if s != [] {
      CollapsedSlice(s, 1, s[1..]);
      if IsWs(s[0]) {
        assert |s| > 1 ==> !WsPair(s, 0);
        assert s == [' '] + s[1..];
        TrimStartOfTight(s[1..]);
        CollapseOfCollapsed(s[1..]);
      } else {
        assert s == [s[0]] + s[1..];
        CollapseOfCollapsed(s[1..]);
      }
    }
  }

  /** The cleaned strings are exactly the fixed points of the cleaner. */
  lemma CleanFixedPoints(s: string)
    ensures Clean(s) == s <==> Normal(s)
  {
    if Normal(s) {
      assert ReplaceBreaks(s) == s;
      CollapseOfCollapsed(s);
      TrimOfTight(s);
    }
  }

  /** Cleaning twice is the same as cleaning once. */
  lemma CleanIdempotent(s: string)
    ensures Clean(Clean(s)) == Clean(s)
  {
    CleanFixedPoints(Clean(s));
  }

  /* ---------------------------------------------------------------------
     Words across a line break: cleaning a merged entry keeps the words of
     each of its lines, in order.
     --------------------------------------------------------------------- */

  lemma {:induction false} TrimStartPastBlank(p: string, q: string)
    requires AllWs(p)
    ensures TrimStart(p + q) == TrimStart(q)
    decreases |p|
  {
    if p == [] {
      assert p + q == q;
    } else {
      assert (p + q)[0] == p[0];
      assert (p + q)[1..] == p[1..] + q;
      assert AllWs(p[1..]);
      TrimStartPastBlank(p[1..], q);
    }
  }

  lemma {:induction false} TrimStartAppend(p: string, q: string)
    requires TrimStart(p) != []
    ensures TrimStart(p + q) == TrimStart(p) + q
    decreases |p|
  {
    if IsWs(p[0]) {
      assert (p + q)[1..] == p[1..] + q;
      TrimStartAppend(p[1..], q);
    }
  }

  lemma {:induction false} TokenLenAppend(p: string, q: string)
    requires TokenLen(p) < |p| || q == [] || IsWs(q[0])
    ensures TokenLen(p + q) == TokenLen(p)
    decreases |p|
  {
    if p != [] && !IsWs(p[0]) {
      assert (p + q)[1..] == p[1..] + q;
      TokenLenAppend(p[1..], q);
    }
  }

  /** A whitespace character separates words: the words of `a + [c] + b`
      are those of `a` followed by those of `b`. */
  lemma {:induction false} WordsSplit(a: string, c: char, b: string)
    requires IsWs(c)
    ensures Words(a + [c] + b) == Words(a) + Words(b)
    decreases |a|
  {
    var ta := TrimStart(a);
    if ta == [] {
      WordsSplitBlank(a, c, b);
    } else {
      var n := TokenLen(ta);
      WordsSplit(ta[n..], c, b);
      WordsSplitWord(a, c, b);
    }
  }

  lemma WordsSplitBlank(a: string, c: char, b: string)
    requires IsWs(c) && TrimStart(a) == []
    ensures Words(a + [c] + b) == Words(a) + Words(b)
  {
    var cb := [c] + b;
    ConcatAssoc(a, [c], b);
    TrimStartPastBlank(a, cb);
    AppendTail([c], b);
    assert TrimStart(cb) == TrimStart(b);
    WordsTrimStart(a + cb);
    WordsTrimStart(b);
    assert Words(a) == [];
    AppendEmpty([], Words(b));
  }

  lemma WordsSplitWord(a: string, c: char, b: string)
    requires IsWs(c) && TrimStart(a) != []
    requires var ta := TrimStart(a); var n := TokenLen(ta);
      Words(ta[n..] + [c] + b) == Words(ta[n..]) + Words(b)
    ensures Words(a + [c] + b) == Words(a) + Words(b)
  {
    var ta := TrimStart(a);
    var n := TokenLen(ta);
    var cb := [c] + b;
    ConcatAssoc(a, [c], b);
    TrimStartAppend(a, cb);
    var t := ta + cb;
    TokenLenAppend(ta, cb);
    PrefixOfAppend(ta, cb, n);
    ConcatAssoc(ta[n..], [c], b);
    WordsTrimStart(a + cb);
    WordsCons(t);
    WordsTrimStart(a);
    WordsCons(ta);
    ConcatAssoc([ta[..n]], Words(ta[n..]), Words(b));
  }

  lemma PrefixOfAppend(p: string, q: string, n: nat)
    requires n <= |p|
    ensures (p + q)[..n] == p[..n] && (p + q)[n..] == p[n..] + q
  {
  }

  /** Cleaning an entry to which a line was appended after a line break
      gives the entry's words followed by the line's words. */
  lemma CleanMergedLine(entry: string, line: string)
    ensures Clean(entry + "\n" + line) == JoinWith(Words(entry) + Words(line), " ")
  {
    assert entry + "\n" + line == entry + ['\n'] + line;
    WordsSplit(entry, '\n', line);
    CleanIsJoinedWords(entry + "\n" + line);
  }

  /** A line whose words were all filtered out leaves no trace in the
      cleaned entry. */
  lemma CleanMergedEmptyLine(entry: string)
    ensures Clean(entry + "\n" + "") == Clean(entry)
  {
    CleanMergedLine(entry, "");
    CleanIsJoinedWords(entry);
    assert Words(entry) + Words("") == Words(entry);
  }
}

=== FILE: geometry.dfy ===
/**
  The two pieces of screen geometry: where the cropper starts when an
  image is loaded, and which vertical strip of the cropped image is kept
  for recognition.

  The source computes with IEEE doubles; here the arithmetic is exact on
  `real`. Image sizes handed to the cropper callback are non-negative
  reals; the sizes of a decoded image are whole pixels.
*/
module Geometry {

  /** A rectangle by its top-left and bottom-right corners. */
  datatype Rect = Rect(x1: real, y1: real, x2: real, y2: real)

  /** `r` has positive area and lies strictly inside a `w` by `h` image. */
  predicate StrictlyInside(r: Rect, w: real, h: real) {
    0.0 < r.x1 < r.x2 < w && 0.0 < r.y1 < r.y2 < h
  }

  /** `width / height > 3` as a double comparison: dividing a positive
      width by a zero height gives +Infinity, which is greater than 3;
      0 / 0 is NaN, which is not. */
  predicate IsWide(w: real, h: real)
    requires w >= 0.0 && h >= 0.0
  {
    if h == 0.0 then w > 0.0 else w / h > 3.0
  }

  /** A 4:1 image is wide and a 3:1 image is not; with no height, any
      width makes the image wide and no width does not. */
  lemma IsWideExamples()
    ensures IsWide(4.0, 1.0) && !IsWide(3.0, 1.0)
    ensures IsWide(1.0, 0.0) && !IsWide(0.0, 0.0)
  {
  }

  const LeftFraction: real := 0.155
  const RightFraction: real := 0.43
  const TopFraction: real := 0.25
  const BottomFraction: real := 0.70

  /** The initial cropper position for an image of `w` by `h`. A very wide
      image (two monitors side by side) is treated as if only its left half
      were the game window. */
  function CropperStart(w: real, h: real): (r: Rect)
    requires w >= 0.0 && h >= 0.0
    ensures w > 0.0 && h > 0.0 ==> StrictlyInside(r, w, h)
    ensures IsWide(w, h) ==> r.x2 < w / 2.0
    ensures r.x1 == 0.0 <==> w == 0.0
    ensures r.y2 - r.y1 == (BottomFraction - TopFraction) * h
  {
    var base := if IsWide(w, h) then w / 2.0 else w;
    Rect(base * LeftFraction, h * TopFraction, base * RightFraction, h * BottomFraction)
  }

  /** On a wide image, however wide, the cropper's columns are those of
      any image half as wide that is not itself wide; when that half has
      the same height, the whole rectangle is. */
  lemma WideUsesLeftHalf(w: real, h: real, h': real)
    requires w >= 0.0 && h >= 0.0 && h' >= 0.0
    requires IsWide(w, h) && !IsWide(w / 2.0, h')
    ensures CropperStart(w, h).x1 == CropperStart(w / 2.0, h').x1
    ensures CropperStart(w, h).x2 == CropperStart(w / 2.0, h').x2
    ensures h' == h ==> CropperStart(w, h) == CropperStart(w / 2.0, h')
  {
  }

  /** Every wide image has a half-width companion that is not wide, so
      `WideUsesLeftHalf` covers all wide images: a height of `w` will do. */
  lemma HalfHasNarrowCompanion(w: real, h: real)
    requires w >= 0.0 && h >= 0.0 && IsWide(w, h)
    ensures !IsWide(w / 2.0, w)
  {
  }

  /** Scaling the image scales the starting rectangle by the same factor. */
  lemma CropperScales(w: real, h: real, c: real)
    requires w >= 0.0 && h >= 0.0 && c > 0.0
    ensures var r, s := CropperStart(w, h), CropperStart(c * w, c * h);
      s == Rect(c * r.x1, c * r.y1, c * r.x2, c * r.y2)
  {
    if h > 0.0 {
      WideByProduct(w, h);
      WideByProduct(c * w, c * h);
      assert c * w - 3.0 * (c * h) == c * (w - 3.0 * h);
      ProductSign(c, w - 3.0 * h);
    } else {
      ProductSign(c, w);
    }
  }

  /** For a positive height, wide means wider than three heights. */
  lemma WideByProduct(w: real, h: real)
    requires w >= 0.0 && h > 0.0
    ensures IsWide(w, h) <==> w > 3.0 * h
  {
    var q := w / h;
    assert w == q * h;
    assert w - 3.0 * h == (q - 3.0) * h;
    ProductSign(h, q - 3.0);
  }

  lemma ProductSign(c: real, x: real)
    requires c > 0.0
    ensures c * x > 0.0 <==> x > 0.0
    ensures c * x == 0.0 <==> x == 0.0
  {
    if x > 0.0 {
      assert c * x > 0.0;
    } else if x < 0.0 {
      assert c * (-x) > 0.0;
    }
  }

  /** The vertical position never depends on the width. */
  lemma CropperRowsIgnoreWidth(w: real, w': real, h: real)
    requires w >= 0.0 && w' >= 0.0 && h >= 0.0
    ensures CropperStart(w, h).y1 == CropperStart(w', h).y1
    ensures CropperStart(w, h).y2 == CropperStart(w', h).y2
  {
  }

  /* ---------------------------------------------------------------------
     The craft column
     --------------------------------------------------------------------- */

  /** The cropped image has three columns: the craft icon, the craft text
      and the item level. Only the middle one is read. */
  const IconWidth: real := 0.16
  const CraftWidth: real := 0.7
  const LevelWidth: real := 1.0 - CraftWidth - IconWidth

  /** The arguments of the `drawImage` call that copies the craft column
      to a canvas of its own. */
  datatype Crop = Crop(sourceX: real, sourceY: real, sourceWidth: real, sourceHeight: real,
                       destWidth: nat, destHeight: nat)

  /** The craft column of a `w` by `h` image. A canvas dimension is an
      unsigned integer, so the fractional width is truncated when it is
      assigned. */
  function ColumnCrop(w: nat, h: nat): (c: Crop)
    ensures 0.0 <= c.sourceX && c.sourceX + c.sourceWidth <= w as real
    ensures c.sourceY == 0.0 && c.sourceHeight == h as real && c.destHeight == h
    ensures c.sourceX == IconWidth * w as real
    ensures w as real - (c.sourceX + c.sourceWidth) == LevelWidth * w as real
    ensures c.destWidth as real <= c.sourceWidth < c.destWidth as real + 1.0
  {
    var width := w as real * CraftWidth;
    Crop(w as real * IconWidth, 0.0, width, h as real, width.Floor, h)
  }
}

=== FILE: scanner.dfy ===
/**
  The scanner component: the cropping callback that prepares the craft
  column, and the recognition step that turns recognised lines into the
  list of cleaned craft entries shown to the user.

  The browser and the recogniser are outside the model: the encoded image
  and the recognised lines are parameters. Recognition is asynchronous in
  the component; here its effect is applied at once.
*/
module Scanner {
  import opened Text
  import opened Cleaning
  import opened Segmentation
  import opened Geometry

  /** The fields of the component that the scan reads and writes. An empty
      `imageUrl` stands for the unset (falsy) value. */
  datatype Component = Component(imageUrl: string, hasWorker: bool, ocrResult: string, crafts: seq<string>)

  /** The status text shown as soon as recognition is requested. */
  const Analyzing: string := "Analyzing"

  /** The entries shown for the recognised lines. */
  function CraftList(recognised: seq<Line>): (r: seq<string>)
    ensures |r| == |TriggerLines(LineTexts(recognised))|
    ensures forall k :: 0 <= k < |r| ==> Normal(r[k])
  {
    var entries := Segment(LineTexts(recognised));
    SegmentEntries(LineTexts(recognised));
    CleanAllNormal(entries);
    CleanAll(entries)
  }

  lemma CleanAllNormal(entries: seq<string>)
    ensures forall k :: 0 <= k < |entries| ==> Normal(CleanAll(entries)[k])
  {
    forall k | 0 <= k < |entries|
      ensures Normal(CleanAll(entries)[k])
    {
      assert Normal(Clean(entries[k]));
    }
  }

  /** What the recogniser delivers: the recognised lines, or a rejection.
      A rejection surfaces in a callback that nothing awaits, so it only
      cuts the recognition step short. */
  datatype Recognition = Failed | Recognised(lines: seq<Line>)

  /** The status always becomes "Analyzing". Recognition runs only when
      there is an image and a recogniser; when it delivers lines, the
      entries are replaced. Nothing else changes. */
  function DoOcr(c: Component, result: Recognition): (r: Component)
    ensures r.imageUrl == c.imageUrl && r.hasWorker == c.hasWorker && r.ocrResult == Analyzing
    ensures c.imageUrl == [] || !c.hasWorker || result.Failed? ==> r == c.(ocrResult := Analyzing)
    ensures c.imageUrl != [] && c.hasWorker && result.Recognised? ==>
      r.crafts == CraftList(result.lines)
      && |r.crafts| == |TriggerLines(LineTexts(result.lines))|
      && forall k :: 0 <= k < |r.crafts| ==> Normal(r.crafts[k])
  {
    var c := c.(ocrResult := Analyzing);
    if c.imageUrl == [] || !c.hasWorker then c
    else match result
      case Failed => c
      case Recognised(lines) => c.(crafts := CraftList(lines))
  }

  /** The cropping callback for a cropped image of `w` by `h` pixels:
      unless the cropper's left edge is at 0, the craft column of the image
      becomes the image to recognise and recognition runs. `encode` is the
      canvas encoding (`toDataURL`), which never yields an empty string. */
  function ImageCropped(c: Component, x1: real, w: nat, h: nat, encode: Crop -> string,
                        result: Recognition): (r: Component)
    requires forall k :: encode(k) != []
    ensures x1 == 0.0 ==> r == c
    ensures x1 != 0.0 ==>
      r.imageUrl == encode(ColumnCrop(w, h)) && r.hasWorker == c.hasWorker && r.ocrResult == Analyzing
    ensures x1 != 0.0 && c.hasWorker && result.Recognised? ==> r.crafts == CraftList(result.lines)
    ensures x1 != 0.0 && (!c.hasWorker || result.Failed?) ==> r.crafts == c.crafts
  {
    if x1 == 0.0 then c else DoOcr(c.(imageUrl := encode(ColumnCrop(w, h))), result)
  }

  /** A cropper placed by `CropperStart` on a `cw` by `ch` image: the
      cropping callback ignores it when the image has no width, and
      otherwise recognises the craft column of the cropped image. */
  lemma StartedCropperPassesGate(cw: real, ch: real, c: Component, w: nat, h: nat,
                                 encode: Crop -> string, result: Recognition)
    requires cw >= 0.0 && ch >= 0.0 && forall k :: encode(k) != []
    ensures var r := ImageCropped(c, CropperStart(cw, ch).x1, w, h, encode, result);
      && (cw == 0.0 ==> r == c)
      && (cw > 0.0 ==> r.imageUrl == encode(ColumnCrop(w, h)) && r.ocrResult == Analyzing)
  {
  }

  /** Each shown entry is the words of one group of lines (a trigger line
      and the lines up to the next one) joined by single spaces. */
  lemma CraftListIsGroupWords(recognised: seq<Line>)
    ensures var texts := LineTexts(recognised);
      var gs := GroupLines(texts);
      |CraftList(recognised)| == |gs|
      && forall k :: 0 <= k < |gs| ==>
           CraftList(recognised)[k] == JoinWith(LinesWords(gs[k]), " ")
  {
    var texts := LineTexts(recognised);
    var gs := GroupLines(texts);
    SegmentIsGroups(texts);
    GroupsAreEntries(texts);
    forall k | 0 <= k < |gs|
      ensures CraftList(recognised)[k] == JoinWith(LinesWords(gs[k]), " ")
    {
      EntryWords(gs[k]);
      CleanIsJoinedWords(Entry(gs[k]));
    }
  }

  /** The recognition step as the component runs it: the two loops over
      lines and words, then the cleaning of every entry. */
  method RunOcr(c: Component, result: Recognition) returns (r: Component)
    ensures r == DoOcr(c, result)
    ensures r.imageUrl == c.imageUrl && r.hasWorker == c.hasWorker
  {
    if c.imageUrl == [] || !c.hasWorker || result.Failed? {
      return c.(ocrResult := Analyzing);
    }
    var crafts := SegmentLines(result.lines);
    var cleaned := [];
    for k := 0 to |crafts|
      invariant cleaned == CleanAll(crafts[..k])
    {
      MapSnoc(Clean, crafts, k);
      cleaned := cleaned + [Clean(crafts[k])];
    }
    assert crafts[..|crafts|] == crafts;
    r := c.(ocrResult := Analyzing, crafts := cleaned);
  }
}

=== FILE: segmentation.dfy ===
/**
  How the recognised lines become craft entries.

  Each OCR line becomes one line of text: the words whose confidence is at
  least 60, each preceded by a space, then trimmed. A line that starts with
  one of the trigger phrases followed by a space opens a new entry; any
  other line is appended to the last entry after a line break. A line that
  comes before the first trigger line has no entry to join and is lost.
*/
module Segmentation {
  import opened Text
  import opened Cleaning

  /** One recognised word and the recogniser's confidence in it (0 to 100). */
  datatype Word = Word(text: string, confidence: real)

  /** The words of one recognised line, left to right. */
  type Line = seq<Word>

  const MinConfidence: real := 60.0

  /** A word is kept unless its confidence is below the threshold. */
  predicate Confident(w: Word) {
    !(w.confidence < MinConfidence)
  }

  /* ---------------------------------------------------------------------
     Line text
     --------------------------------------------------------------------- */

  /** The confident words of `line`, in their original order;
      `KeptMembers` says which words those are. */
  function Kept(line: Line): (r: Line)
    ensures |r| <= |line|
  {
    if line == [] then []
    else
      var w := line[|line| - 1];
      Kept(line[..|line| - 1]) + (if Confident(w) then [w] else [])
  }

  /** What the inner loop accumulates: a space and the text of each word. */
  function Spaced(ws: Line): (r: string)
    ensures r == [] <==> ws == []
    ensures ws != [] ==> r[0] == ' '
  {
    if ws == [] then "" else Spaced(ws[..|ws| - 1]) + " " + ws[|ws| - 1].text
  }

  function Texts(ws: Line): (r: seq<string>)
    ensures |r| == |ws| && forall k :: 0 <= k < |ws| ==> r[k] == ws[k].text
  {
    seq(|ws|, k requires 0 <= k < |ws| => ws[k].text)
  }

  /** The words of all the texts of `ws`, in order. */
  function WordsOf(ws: Line): seq<string> {
    if ws == [] then [] else WordsOf(ws[..|ws| - 1]) + Words(ws[|ws| - 1].text)
  }

  /** The text of one recognised line, as the segmenter sees it. */
  function LineText(line: Line): (r: string)
    ensures Tight(r)
    ensures Kept(line) == [] ==> r == []
  {
    Trim(Spaced(Kept(line)))
  }

  function LineTexts(lines: seq<Line>): (r: seq<string>)
    ensures |r| == |lines| && forall k :: 0 <= k < |lines| ==> r[k] == LineText(lines[k])
  {
    Map(LineText, lines)
  }

  /** The filter keeps order: filtering two pieces and joining the results
      is filtering the joined pieces. */
  lemma {:induction false} KeptAppend(a: Line, b: Line)
    ensures Kept(a + b) == Kept(a) + Kept(b)
    decreases |b|
  {
    if b == [] {
      assert a + b == a;
    } else {
      KeptAppend(a, b[..|b| - 1]);
      KeptAppendStep(a, b);
    }
  }

  lemma KeptAppendStep(a: Line, b: Line)
    requires b != [] && Kept(a + b[..|b| - 1]) == Kept(a) + Kept(b[..|b| - 1])
    ensures Kept(a + b) == Kept(a) + Kept(b)
  {
    var b', w := b[..|b| - 1], b[|b| - 1];
    assert (a + b)[..|a + b| - 1] == a + b' && (a + b)[|a + b| - 1] == w;
    var x := if Confident(w) then [w] else [];
    ConcatAssoc(Kept(a), Kept(b'), x);
  }

  /** The words kept are exactly the confident words of the line. */
  lemma {:induction false} KeptMembers(line: Line)
    ensures forall w :: w in Kept(line) <==> w in line && Confident(w)
    decreases |line|
  {
    if line != [] {
      var p, w := line[..|line| - 1], line[|line| - 1];
      KeptMembers(p);
      assert line == p + [w];
    }
  }

  /** A word is kept exactly when it is confident. */
  lemma KeptOne(w: Word)
    ensures Kept([w]) == (if Confident(w) then [w] else [])
  {
    assert [w][..0] == [];
  }

  lemma {:induction false} SpacedWords(ws: Line)
    ensures Words(Spaced(ws)) == WordsOf(ws)
    decreases |ws|
  {
    if ws != [] {
      var p := ws[..|ws| - 1];
      SpacedWords(p);
      WordsSplit(Spaced(p), ' ', ws[|ws| - 1].text);
      BlankWords([]);
      AppendEmpty([], WordsOf(p));
    } else {
      BlankWords([]);
    }
  }

  /** The words of a line's text are the words of its confident words, in
      order: the filter, the spacing and the trimming lose no word and
      invent none. */
  lemma LineWords(line: Line)
    ensures Words(LineText(line)) == WordsOf(Kept(line))
  {
    WordsTrim(Spaced(Kept(line)));
    SpacedWords(Kept(line));
  }

  /** When every confident word is a single token, the line text is those
      words joined by single spaces. */
  lemma LineTextJoinsWords(line: Line)
    requires forall w :: w in Kept(line) ==> IsWord(w.text)
    ensures LineText(line) == JoinWith(Texts(Kept(line)), " ")
  {
    var ws := Kept(line);
    if ws != [] {
      SpacedJoin(ws);
      TextsAreWords(ws);
      JoinWordsTight(Texts(ws));
      TrimLeadingSpace(JoinWith(Texts(ws), " "));
    }
  }

  /** The line text is the confident words joined by single spaces exactly
      when that join has no whitespace at its ends. */
  lemma LineTextJoinExactly(line: Line)
    ensures var j := JoinWith(Texts(Kept(line)), " ");
      LineText(line) == j <==> Tight(j)
  {
    var ws := Kept(line);
    var j := JoinWith(Texts(ws), " ");
    if ws != [] && Tight(j) {
      SpacedJoin(ws);
      TrimLeadingSpace(j);
    }
  }

  lemma TextsAreWords(ws: Line)
    requires forall w :: w in ws ==> IsWord(w.text)
    ensures forall k :: 0 <= k < |Texts(ws)| ==> IsWord(Texts(ws)[k])
  {
    forall k | 0 <= k < |ws|
      ensures IsWord(Texts(ws)[k])
    {
      assert ws[k] in ws;
    }
  }


  lemma {:induction false} SpacedJoin(ws: Line)
    requires ws != []
    ensures Spaced(ws) == " " + JoinWith(Texts(ws), " ")
    decreases |ws|
  {
    var p := ws[..|ws| - 1];
    var w := ws[|ws| - 1].text;
    assert Texts(ws) == Texts(p) + [w];
    if p == [] {
      assert Texts(ws) == [w];
      assert Spaced(p) == "";
    } else {
      SpacedJoin(p);
      SpacedJoinStep(Spaced(p), Texts(p), w);
    }
  }

  /** The inductive step of `SpacedJoin`, stated without `Spaced`. */
  lemma SpacedJoinStep(acc: string, ts: seq<string>, w: string)
    requires ts != [] && acc == " " + JoinWith(ts, " ")
    ensures acc + " " + w == " " + JoinWith(ts + [w], " ")
  {
    JoinSnoc(ts, w, " ");
    ConcatAssoc(" ", JoinWith(ts, " ") + " ", w);
  }

  /* ---------------------------------------------------------------------
     Triggers
     --------------------------------------------------------------------- */

  /** The phrases that open a new craft entry, in the order they are tried. */
  const Triggers: seq<string> := [
    "Reforge", "Randomise", "Remove", "Augment", "Improves", "Upgrades",
    "Upgrade", "Set", "Change", "Exchange", "Sacrifice a", "Sacrifice up",
    "Attempt", "Enchant", "Reroll", "Fracture", "Add a random", "Synthesise",
    "Split", "Corrupt"
  ]

  /** The line starts with a trigger phrase followed by a space. */
  predicate IsTrigger(text: string) {
    exists i :: 0 <= i < |Triggers| && StartsWith(text, Triggers[i] + " ")
  }

  /** A phrase followed by a space opens an entry, whatever comes next. */
  lemma TriggerExamples()
    ensures IsTrigger("Corrupt item")
    ensures IsTrigger("Sacrifice a Corrupted Gem")
  {
    assert StartsWith("Corrupt item", Triggers[19] + " ");
    assert StartsWith("Sacrifice a Corrupted Gem", Triggers[10] + " ");
  }

  /** The trailing space matters: a phrase used as the start of a longer
      word does not open an entry. */
  lemma LongerWordIsNoTrigger()
    ensures !IsTrigger("Corruptible item")
  {
    var s := "Corruptible item";
    forall i | 0 <= i < |Triggers|
      ensures !StartsWith(s, Triggers[i] + " ")
    {
      var p := Triggers[i] + " ";
      assert DiffersAt(s, p, 0) || DiffersAt(s, p, 1) || DiffersAt(s, p, 7);
      Differs(s, p);
    }
  }

  /** A phrase alone on its line does not open an entry either. */
  lemma BarePhraseIsNoTrigger()
    ensures !IsTrigger("Corrupt")
  {
    var s := "Corrupt";
    forall i | 0 <= i < |Triggers|
      ensures !StartsWith(s, Triggers[i] + " ")
    {
      var p := Triggers[i] + " ";
      if |p| <= |s| {
        assert DiffersAt(s, p, 0) || DiffersAt(s, p, 1);
        Differs(s, p);
      }
    }
  }

  /** `s` and `p` both have a character at `j`, and they differ. */
  predicate DiffersAt(s: string, p: string, j: nat) {
    j < |s| && j < |p| && s[j] != p[j]
  }

  lemma Differs(s: string, p: string)
    requires exists j: nat :: DiffersAt(s, p, j)
    ensures !StartsWith(s, p)
  {
    var j: nat :| DiffersAt(s, p, j);
  }

  /** Whatever follows a trigger line's phrase does not matter. */
  lemma TriggerExtends(text: string, more: string)
    requires IsTrigger(text)
    ensures IsTrigger(text + more)
  {
    var i :| 0 <= i < |Triggers| && StartsWith(text, Triggers[i] + " ");
    assert (text + more)[..|Triggers[i] + " "|] == text[..|Triggers[i] + " "|];
  }

  /** The trigger lines among `texts`, in order. */
  function TriggerLines(texts: seq<string>): (r: seq<string>)
    ensures |r| <= |texts|
    ensures forall k :: 0 <= k < |r| ==> IsTrigger(r[k])
    ensures forall t :: t in r <==> t in texts && IsTrigger(t)
  {
    if texts == [] then []
    else (if IsTrigger(texts[0]) then [texts[0]] else []) + TriggerLines(texts[1..])
  }

  /* ---------------------------------------------------------------------
     Segmentation as a left fold
     --------------------------------------------------------------------- */

  /** One iteration of the outer loop: a trigger line is a new entry; any
      other line goes to the end of the last entry, or is lost when there
      is no entry yet. */
  function Step(crafts: seq<string>, text: string): (r: seq<string>)
    ensures IsTrigger(text) ==> |r| == |crafts| + 1 && r[|crafts|] == text
    ensures !IsTrigger(text) ==> |r| == |crafts|
    ensures forall k :: 0 <= k < |crafts| - 1 ==> r[k] == crafts[k]
  {
    if IsTrigger(text) then
      crafts + [text]
    else if crafts == [] then
      crafts
    else
      crafts[..|crafts| - 1] + [crafts[|crafts| - 1] + "\n" + text]
  }

  /** A step only ever lengthens entries: each old entry is a prefix of
      its new value. */
  lemma StepExtends(crafts: seq<string>, text: string)
    ensures forall k :: 0 <= k < |crafts| ==> StartsWith(Step(crafts, text)[k], crafts[k])
  {
    if !IsTrigger(text) && crafts != [] {
      var last := crafts[|crafts| - 1];
      assert (last + "\n" + text)[..|last|] == last;
    }
  }

  /** The outer loop run from the entries `crafts` over the lines `texts`. */
  function SegmentFrom(crafts: seq<string>, texts: seq<string>): (r: seq<string>)
    ensures |r| == |crafts| + |TriggerLines(texts)|
    decreases |texts|
  {
    if texts == [] then crafts else SegmentFrom(Step(crafts, texts[0]), texts[1..])
  }

  /** The craft entries made from the texts of the recognised lines. */
  function Segment(texts: seq<string>): (r: seq<string>)
    ensures |r| == |TriggerLines(texts)|
  {
    SegmentFrom([], texts)
  }

  /* ---------------------------------------------------------------------
     Segmentation described directly
     --------------------------------------------------------------------- */

  /** Number of leading lines of `texts` that are not trigger lines. */
  function RunLen(texts: seq<string>): (n: nat)
    ensures n <= |texts|
    ensures forall i :: 0 <= i < n ==> !IsTrigger(texts[i])
    ensures n == |texts| || IsTrigger(texts[n])
  {
    if texts == [] || IsTrigger(texts[0]) then 0 else 1 + RunLen(texts[1..])
  }

  /** Each line of `run` after a line break. */
  function Continuation(run: seq<string>): string {
    if run == [] then "" else "\n" + run[0] + Continuation(run[1..])
  }

  /** One entry per trigger line: the trigger line followed by the
      non-trigger lines up to the next trigger line. Lines before the first
      trigger line belong to no entry. */
  function Groups(texts: seq<string>): seq<string>
    decreases |texts|
  {
    if texts == [] then []
    else if !IsTrigger(texts[0]) then Groups(texts[1..])
    else
      var n := RunLen(texts[1..]);
      [texts[0] + Continuation(texts[1..1 + n])] + Groups(texts[1 + n..])
  }

  /** A trigger line followed by non-trigger lines. */
  predicate IsGroup(g: seq<string>) {
    g != [] && IsTrigger(g[0]) && forall j :: 1 <= j < |g| ==> !IsTrigger(g[j])
  }

  /** The lines that make up each entry of `Groups`. */
  function GroupLines(texts: seq<string>): seq<seq<string>>
    decreases |texts|
  {
    if texts == [] then []
    else if !IsTrigger(texts[0]) then GroupLines(texts[1..])
    else
      var n := RunLen(texts[1..]);
      [texts[..1 + n]] + GroupLines(texts[1 + n..])
  }

  predicate AllGroups(gs: seq<seq<string>>) {
    forall k :: 0 <= k < |gs| ==> IsGroup(gs[k])
  }

  /** Each group is a trigger line and the non-trigger lines after it. */
  lemma {:induction false} GroupLinesAreGroups(texts: seq<string>)
    ensures AllGroups(GroupLines(texts))
    decreases |texts|
  {
    if texts != [] {
      if !IsTrigger(texts[0]) {
        GroupLinesAreGroups(texts[1..]);
      } else {
        var n := RunLen(texts[1..]);
        GroupLinesAreGroups(texts[1 + n..]);
        FirstGroup(texts, n);
        AllGroupsCons(texts[..1 + n], GroupLines(texts[1 + n..]));
      }
    }
  }

  lemma AllGroupsCons(g: seq<string>, gs: seq<seq<string>>)
    requires IsGroup(g) && AllGroups(gs)
    ensures AllGroups([g] + gs)
  {
    forall k | 0 <= k < |[g] + gs|
      ensures IsGroup(([g] + gs)[k])
    {
      if k > 0 {
        assert ([g] + gs)[k] == gs[k - 1];
      }
    }
  }

  lemma FirstGroup(texts: seq<string>, n: nat)
    requires texts != [] && IsTrigger(texts[0]) && n == RunLen(texts[1..])
    ensures IsGroup(texts[..1 + n])
  {
    var g := texts[..1 + n];
    forall j | 1 <= j < |g|
      ensures !IsTrigger(g[j])
    {
      assert g[j] == texts[1..][j - 1];
    }
  }

  function Flatten(gs: seq<seq<string>>): seq<string> {
    if gs == [] then [] else gs[0] + Flatten(gs[1..])
  }

  /** The text of the entry made from the lines of `g`. */
  function Entry(g: seq<string>): string {
    if g == [] then [] else g[0] + Continuation(g[1..])
  }

  function Entries(gs: seq<seq<string>>): (r: seq<string>)
    ensures |r| == |gs| && forall k :: 0 <= k < |gs| ==> r[k] == Entry(gs[k])
  {
    Map(Entry, gs)
  }

  /* ---------------------------------------------------------------------
     Lemmas
     --------------------------------------------------------------------- */

  /** Folding over two pieces is folding over the first, then the second. */
  lemma {:induction false} SegmentFromConcat(crafts: seq<string>, a: seq<string>, b: seq<string>)
    ensures SegmentFrom(crafts, a + b) == SegmentFrom(SegmentFrom(crafts, a), b)
    decreases |a|
  {
    if a == [] {
      assert a + b == b;
    } else {
      assert (a + b)[0] == a[0] && (a + b)[1..] == a[1..] + b;
      SegmentFromConcat(Step(crafts, a[0]), a[1..], b);
    }
  }

  /** Reading one more line changes the entries exactly as one step does. */
  lemma SegmentAppendLine(texts: seq<string>, text: string)
    ensures Segment(texts + [text]) == Step(Segment(texts), text)
  {
    SegmentFromConcat([], texts, [text]);
    assert [text][1..] == [];
  }

  /** What one more line does to the entries: a trigger line adds an
      entry at the end; another line extends the last entry by a line break
      and itself, or, before any trigger line, is dropped. No other entry
      changes. */
  lemma SegmentNextLine(texts: seq<string>, text: string)
    ensures var before, after := Segment(texts), Segment(texts + [text]);
      && (IsTrigger(text) ==> after == before + [text])
      && (!IsTrigger(text) && before == [] ==> after == [])
      && (!IsTrigger(text) && before != [] ==>
            |after| == |before|
            && after[..|after| - 1] == before[..|before| - 1]
            && after[|after| - 1] == before[|before| - 1] + "\n" + text)
  {
    SegmentAppendLine(texts, text);
  }

  /** Lines before the first trigger line leave no trace. */
  lemma {:induction false} SegmentDropsLeading(texts: seq<string>, n: nat)
    requires n <= |texts| && forall i :: 0 <= i < n ==> !IsTrigger(texts[i])
    ensures Segment(texts) == Segment(texts[n..])
    decreases n
  {
    if n > 0 {
      assert texts[1..][n - 1..] == texts[n..];
      SegmentDropsLeading(texts[1..], n - 1);
    }
  }

  lemma StepShift(a: seq<string>, b: seq<string>, text: string)
    requires b != []
    ensures Step(a + b, text) == a + Step(b, text)
  {
    if !IsTrigger(text) {
      assert (a + b)[..|a + b| - 1] == a + b[..|b| - 1];
    }
  }

  /** Entries before the last one are never touched again. */
  lemma {:induction false} SegmentFromShift(a: seq<string>, b: seq<string>, texts: seq<string>)
    requires b != []
    ensures SegmentFrom(a + b, texts) == a + SegmentFrom(b, texts)
    decreases |texts|
  {
    if texts != [] {
      StepShift(a, b, texts[0]);
      SegmentFromShift(a, Step(b, texts[0]), texts[1..]);
    }
  }

  /** A run of non-trigger lines extends the last entry. */
  lemma {:induction false} SegmentFromRun(crafts: seq<string>, run: seq<string>, rest: seq<string>)
    requires crafts != [] && forall i :: 0 <= i < |run| ==> !IsTrigger(run[i])
    ensures SegmentFrom(crafts, run + rest)
         == SegmentFrom(crafts[..|crafts| - 1] + [crafts[|crafts| - 1] + Continuation(run)], rest)
    decreases |run|
  {
    if run == [] {
      EmptyRun(crafts, run, rest);
    } else {
      var next := Step(crafts, run[0]);
      SegmentFromRun(next, run[1..], rest);
      RunStep(crafts, run, rest);
    }
  }

  lemma EmptyRun(crafts: seq<string>, run: seq<string>, rest: seq<string>)
    requires crafts != [] && run == []
    ensures SegmentFrom(crafts, run + rest)
         == SegmentFrom(crafts[..|crafts| - 1] + [crafts[|crafts| - 1] + Continuation(run)], rest)
  {
    var last := crafts[|crafts| - 1];
    assert run + rest == rest;
    assert last + Continuation(run) == last;
    assert crafts[..|crafts| - 1] + [last] == crafts;
  }

  lemma RunStep(crafts: seq<string>, run: seq<string>, rest: seq<string>)
    requires crafts != [] && run != [] && !IsTrigger(run[0])
    requires var next := Step(crafts, run[0]);
      SegmentFrom(next, run[1..] + rest)
      == SegmentFrom(next[..|next| - 1] + [next[|next| - 1] + Continuation(run[1..])], rest)
    ensures SegmentFrom(crafts, run + rest)
         == SegmentFrom(crafts[..|crafts| - 1] + [crafts[|crafts| - 1] + Continuation(run)], rest)
  {
    var last := crafts[|crafts| - 1];
    UnfoldRun(crafts, run, rest);
    StepAppends(crafts, run[0]);
    ContinuationCons(last, run);
  }

  lemma UnfoldRun(crafts: seq<string>, run: seq<string>, rest: seq<string>)
    requires run != []
    ensures SegmentFrom(crafts, run + rest) == SegmentFrom(Step(crafts, run[0]), run[1..] + rest)
  {
    assert (run + rest)[0] == run[0] && (run + rest)[1..] == run[1..] + rest;
  }

  lemma StepAppends(crafts: seq<string>, text: string)
    requires crafts != [] && !IsTrigger(text)
    ensures var next := Step(crafts, text);
      next[..|next| - 1] == crafts[..|crafts| - 1]
      && next[|next| - 1] == crafts[|crafts| - 1] + "\n" + text
  {
    var next := Step(crafts, text);
    assert next[..|next| - 1] == crafts[..|crafts| - 1];
  }

  lemma ContinuationCons(last: string, run: seq<string>)
    requires run != []
    ensures last + "\n" + run[0] + Continuation(run[1..]) == last + Continuation(run)
  {
    ConcatAssoc(last + "\n" + run[0], Continuation(run[1..]), []);
  }

  /** At a trigger line (or the end) the entries so far are complete. */
  lemma SegmentFromAtTrigger(crafts: seq<string>, texts: seq<string>)
    requires texts == [] || IsTrigger(texts[0])
    ensures SegmentFrom(crafts, texts) == crafts + Segment(texts)
  {
    if texts != [] {
      assert Step(crafts, texts[0]) == crafts + [texts[0]];
      assert Step([], texts[0]) == [texts[0]];
      SegmentFromShift(crafts, [texts[0]], texts[1..]);
    } else {
      assert crafts + [] == crafts;
    }
  }

  /** The fold and the direct description agree. */
  lemma {:induction false} SegmentIsGroups(texts: seq<string>)
    ensures Segment(texts) == Groups(texts)
    decreases |texts|
  {
    if texts != [] {
      if !IsTrigger(texts[0]) {
        SegmentIsGroups(texts[1..]);
      } else {
        var n := RunLen(texts[1..]);
        var run, rest := texts[1..1 + n], texts[1 + n..];
        assert texts[1..] == run + rest;
        assert rest == [] || rest[0] == texts[1..][n];
        assert Step([], texts[0]) == [texts[0]];
        SegmentFromRun([texts[0]], run, rest);
        assert [texts[0]][..0] + [texts[0] + Continuation(run)] == [texts[0] + Continuation(run)];
        SegmentFromAtTrigger([texts[0] + Continuation(run)], rest);
        SegmentIsGroups(rest);
      }
    }
  }

  lemma {:induction false} TriggerLinesSkipRun(texts: seq<string>, n: nat)
    requires n <= |texts| && forall i :: 0 <= i < n ==> !IsTrigger(texts[i])
    ensures TriggerLines(texts) == TriggerLines(texts[n..])
    decreases n
  {
    if n > 0 {
      assert texts[1..][n - 1..] == texts[n..];
      TriggerLinesSkipRun(texts[1..], n - 1);
    }
  }

  /** Entry k of the direct description starts with the k-th trigger line. */
  lemma {:induction false} GroupsStartWithTriggerLines(texts: seq<string>)
    ensures |Groups(texts)| == |TriggerLines(texts)|
    ensures forall k :: 0 <= k < |Groups(texts)| ==>
      StartsWith(Groups(texts)[k], TriggerLines(texts)[k])
    decreases |texts|
  {
    if texts != [] {
      if !IsTrigger(texts[0]) {
        GroupsStartWithTriggerLines(texts[1..]);
      } else {
        var n := RunLen(texts[1..]);
        var rest := texts[1 + n..];
        assert texts[1..][n..] == rest;
        GroupsStartWithTriggerLines(rest);
        GroupsStep(texts, n);
      }
    }
  }

  lemma GroupsStep(texts: seq<string>, n: nat)
    requires texts != [] && IsTrigger(texts[0]) && n == RunLen(texts[1..])
    requires var gs, ts := Groups(texts[1 + n..]), TriggerLines(texts[1 + n..]);
      |gs| == |ts| && forall k :: 0 <= k < |gs| ==> StartsWith(gs[k], ts[k])
    ensures |Groups(texts)| == |TriggerLines(texts)|
    ensures forall k :: 0 <= k < |Groups(texts)| ==>
      StartsWith(Groups(texts)[k], TriggerLines(texts)[k])
  {
    TriggerLinesSkipRun(texts[1..], n);
    assert texts[1..][n..] == texts[1 + n..];
    var head := texts[0] + Continuation(texts[1..1 + n]);
    assert head[..|texts[0]|] == texts[0];
    PairwiseCons(head, texts[0], Groups(texts[1 + n..]), TriggerLines(texts[1 + n..]));
  }

  lemma PairwiseCons(g: string, t: string, gs: seq<string>, ts: seq<string>)
    requires StartsWith(g, t)
    requires |gs| == |ts| && forall k :: 0 <= k < |gs| ==> StartsWith(gs[k], ts[k])
    ensures var gs', ts' := [g] + gs, [t] + ts;
      |gs'| == |ts'| && forall k :: 0 <= k < |gs'| ==> StartsWith(gs'[k], ts'[k])
  {
    var gs', ts' := [g] + gs, [t] + ts;
    forall k | 0 <= k < |gs'|
      ensures StartsWith(gs'[k], ts'[k])
    {
      if k > 0 {
        assert gs'[k] == gs[k - 1] && ts'[k] == ts[k - 1];
      }
    }
  }

  /** A line that starts with a trigger line is a trigger line. */
  lemma TriggerPrefix(e: string, t: string)
    requires IsTrigger(t) && StartsWith(e, t)
    ensures IsTrigger(e)
  {
    assert e == t + e[|t|..];
    TriggerExtends(t, e[|t|..]);
  }

  /** The entries, one per trigger line and in the same order, each
      starting with its trigger line. */
  lemma SegmentEntries(texts: seq<string>)
    ensures |Segment(texts)| == |TriggerLines(texts)|
    ensures forall k :: 0 <= k < |Segment(texts)| ==>
      StartsWith(Segment(texts)[k], TriggerLines(texts)[k])
      && IsTrigger(Segment(texts)[k])
  {
    SegmentIsGroups(texts);
    GroupsStartWithTriggerLines(texts);
    var es, ts := Segment(texts), TriggerLines(texts);
    forall k | 0 <= k < |es|
      ensures IsTrigger(es[k])
    {
      TriggerPrefix(es[k], ts[k]);
    }
  }

  /** Every line from the first trigger line on belongs to exactly one
      group, in order; nothing before it belongs to any. */
  lemma {:induction false} GroupLinesCover(texts: seq<string>)
    ensures Flatten(GroupLines(texts)) == texts[RunLen(texts)..]
    decreases |texts|
  {
    if texts != [] {
      if !IsTrigger(texts[0]) {
        GroupLinesCover(texts[1..]);
        assert texts[1..][RunLen(texts[1..])..] == texts[RunLen(texts)..];
      } else {
        var n := RunLen(texts[1..]);
        GroupLinesCover(texts[1 + n..]);
        CoverGroup(texts, n);
      }
    }
  }

  lemma CoverGroup(texts: seq<string>, n: nat)
    requires texts != [] && IsTrigger(texts[0]) && n == RunLen(texts[1..])
    requires var rest := texts[1 + n..];
      Flatten(GroupLines(rest)) == rest[RunLen(rest)..]
    ensures Flatten(GroupLines(texts)) == texts
  {
    RunEndsAtTrigger(texts, n);
    FlattenCons(texts[..1 + n], GroupLines(texts[1 + n..]));
    SplitAt(texts, 1 + n);
  }

  /** The lines after a run start with a trigger line, if any are left. */
  lemma RunEndsAtTrigger(texts: seq<string>, n: nat)
    requires texts != [] && n == RunLen(texts[1..])
    ensures RunLen(texts[1 + n..]) == 0
  {
    var rest := texts[1 + n..];
    assert rest == [] || rest[0] == texts[1..][n];
  }

  lemma FlattenCons(g: seq<string>, gs: seq<seq<string>>)
    ensures Flatten([g] + gs) == g + Flatten(gs)
  {
    assert ([g] + gs)[1..] == gs;
  }

  lemma EntriesCons(g: seq<string>, gs: seq<seq<string>>)
    ensures Entries([g] + gs) == [Entry(g)] + Entries(gs)
  {
  }

  /** Each entry of the direct description is its group of lines, the
      later ones after line breaks. */
  lemma {:induction false} GroupsAreEntries(texts: seq<string>)
    ensures Groups(texts) == Entries(GroupLines(texts))
    decreases |texts|
  {
    if texts != [] {
      if !IsTrigger(texts[0]) {
        GroupsAreEntries(texts[1..]);
      } else {
        var n := RunLen(texts[1..]);
        GroupsAreEntries(texts[1 + n..]);
        GroupEntryStep(texts, n);
      }
    }
  }

  lemma GroupEntryStep(texts: seq<string>, n: nat)
    requires texts != [] && IsTrigger(texts[0]) && n == RunLen(texts[1..])
    requires Groups(texts[1 + n..]) == Entries(GroupLines(texts[1 + n..]))
    ensures Groups(texts) == Entries(GroupLines(texts))
  {
    var g := texts[..1 + n];
    assert g[1..] == texts[1..1 + n];
    EntriesCons(g, GroupLines(texts[1 + n..]));
  }

  /** The words of each line, in order. */
  function LinesWords(texts: seq<string>): seq<string> {
    if texts == [] then [] else Words(texts[0]) + LinesWords(texts[1..])
  }

  /** A line break separates words, so an entry holds exactly the words of
      its lines. */
  lemma {:induction false} ContinuationWords(prefix: string, run: seq<string>)
    ensures Words(prefix + Continuation(run)) == Words(prefix) + LinesWords(run)
    decreases |run|
  {
    if run == [] {
      assert prefix + "" == prefix;
      assert Words(prefix) + [] == Words(prefix);
    } else {
      var p' := prefix + "\n" + run[0];
      assert prefix + Continuation(run) == p' + Continuation(run[1..]);
      ContinuationWords(p', run[1..]);
      assert p' == prefix + ['\n'] + run[0];
      WordsSplit(prefix, '\n', run[0]);
      ConcatAssoc(Words(prefix), Words(run[0]), LinesWords(run[1..]));
    }
  }

  lemma EntryWords(g: seq<string>)
    ensures Words(Entry(g)) == LinesWords(g)
  {
    if g != [] {
      ContinuationWords(g[0], g[1..]);
    }
  }

  /* ---------------------------------------------------------------------
     The loops of the recogniser callback
     --------------------------------------------------------------------- */

  lemma KeptSnoc(line: Line, i: nat)
    requires i < |line|
    ensures Confident(line[i]) ==> Kept(line[..i + 1]) == Kept(line[..i]) + [line[i]]
    ensures !Confident(line[i]) ==> Kept(line[..i + 1]) == Kept(line[..i])
  {
    assert line[..i + 1][..i] == line[..i];
    assert Kept(line[..i]) + [] == Kept(line[..i]);
  }

  lemma SpacedSnoc(ws: Line, w: Word)
    ensures Spaced(ws + [w]) == Spaced(ws) + " " + w.text
  {
    assert (ws + [w])[..|ws|] == ws;
  }

  /** The inner loop over the words of one line, then the trim. */
  method LineTextOf(line: Line) returns (text: string)
    ensures text == LineText(line)
    ensures Tight(text)
    ensures Words(text) == WordsOf(Kept(line))
  {
    var acc := "";
    for i := 0 to |line|
      invariant acc == Spaced(Kept(line[..i]))
    {
      KeptSnoc(line, i);
      if line[i].confidence < MinConfidence {
        continue;
      }
      SpacedSnoc(Kept(line[..i]), line[i]);
      acc := acc + " " + line[i].text;
    }
    assert line[..|line|] == line;
    text := Trim(acc);
    LineWords(line);
  }

  /** `some` over the trigger phrases. */
  method StartsWithTrigger(text: string) returns (b: bool)
    ensures b <==> IsTrigger(text)
  {
    b := false;
    for i := 0 to |Triggers|
      invariant b <==> exists j :: 0 <= j < i && StartsWith(text, Triggers[j] + " ")
    {
      var p := Triggers[i] + " ";
      if |p| <= |text| && text[..|p|] == p {
        b := true;
      }
    }
  }

  /** The outer loop over the recognised lines. */
  method SegmentLines(lines: seq<Line>) returns (crafts: seq<string>)
    ensures crafts == Segment(LineTexts(lines))
    ensures |crafts| == |TriggerLines(LineTexts(lines))|
    ensures forall k :: 0 <= k < |crafts| ==> IsTrigger(crafts[k])
  {
    crafts := [];
    for j := 0 to |lines|
      invariant crafts == Segment(LineTexts(lines[..j]))
    {
      var text := LineTextOf(lines[j]);
      var isNewCraft := StartsWithTrigger(text);
      MapSnoc(LineText, lines, j);
      SegmentAppendLine(LineTexts(lines[..j]), text);
      if isNewCraft {
        crafts := crafts + [text];
      } else if |crafts| > 0 {
        crafts := crafts[..|crafts| - 1] + [crafts[|crafts| - 1] + "\n" + text];
      }
    }
    assert lines[..|lines|] == lines;
    SegmentEntries(LineTexts(lines));
  }
}

=== FILE: text.dfy ===
/**
  String helpers shared by the line segmenter and the text cleaner.

  Strings are `seq<char>`. Whitespace is the ECMAScript set that both
  `String.prototype.trim` and the regular-expression class `\s` use: the
  WhiteSpace code points plus the LineTerminator code points.
*/
module Text {

  /** ECMAScript WhiteSpace or LineTerminator (TAB, LF, VT, FF, CR, SPACE,
      NBSP, the Unicode Zs separators, LS, PS and the BOM). */
  predicate IsWs(c: char) {
    var n := c as int;
    || n == 0x09 || n == 0x0A || n == 0x0B || n == 0x0C || n == 0x0D
    || n == 0x20 || n == 0xA0 || n == 0x1680
    || (0x2000 <= n <= 0x200A)
    || n == 0x2028 || n == 0x2029 || n == 0x202F || n == 0x205F
    || n == 0x3000 || n == 0xFEFF
  }

  /** The common separators are whitespace; the zero-width space U+200B
      and the C1 "next line" U+0085 are not, although some other regular
      expression dialects count them. */
  lemma WhitespaceExamples()
    ensures IsWs(' ') && IsWs('\t') && IsWs('\n') && IsWs('\r')
    ensures IsWs('\U{A0}') && IsWs('\U{3000}') && IsWs('\U{FEFF}')
    ensures !IsWs('a') && !IsWs('\U{200B}') && !IsWs('\U{85}')
  {
  }

  /** Every character of `s` is whitespace (vacuously true of ""). */
  predicate AllWs(s: string) {
    forall i :: 0 <= i < |s| ==> IsWs(s[i])
  }

  /** Some character of `s` is not whitespace. */
  predicate HasText(s: string) {
    exists i :: 0 <= i < |s| && !IsWs(s[i])
  }

  /** `s` does not begin or end with whitespace. */
  predicate Tight(s: string) {
    s == [] || (!IsWs(s[0]) && !IsWs(s[|s| - 1]))
  }

  predicate StartsWith(s: string, prefix: string) {
    |prefix| <= |s| && s[..|prefix|] == prefix
  }

  /** Leading whitespace removed: the result is a suffix of `s`, what was
      dropped is whitespace, and what is left does not start with it. */
  function TrimStart(s: string): (r: string)
    ensures |r| <= |s| && r == s[|s| - |r|..]
    ensures forall i :: 0 <= i < |s| - |r| ==> IsWs(s[i])
    ensures r == [] || !IsWs(r[0])
  {
    if |s| > 0 && IsWs(s[0]) then
      TrimStart(s[1..])
    else
      s
  }

  /** Trailing whitespace removed: the result is a prefix of `s`, what was
      dropped is whitespace, and what is left does not end with it. */
  function TrimEnd(s: string): (r: string)
    ensures |r| <= |s| && r == s[..|r|]
    ensures forall i :: |r| <= i < |s| ==> IsWs(s[i])
    ensures r == [] || !IsWs(r[|r| - 1])
  {
    if |s| > 0 && IsWs(s[|s| - 1]) then
      TrimEnd(s[..|s| - 1])
    else
      s
  }

  /** `String.prototype.trim`: whitespace removed from both ends. The
      result has no whitespace at either end, and it is empty exactly when
      `s` is all whitespace; `TrimStart` and `TrimEnd` say that only
      whitespace was removed. */
  function Trim(s: string): (r: string)
    ensures Tight(r)
    ensures r == [] <==> AllWs(s)
  {
    var t := TrimStart(s);
    TrimStartBlank(s);
    TrimEndBlank(t);
    TightTrimEnd(t);
    TrimEnd(t)
  }

  lemma TightTrimEnd(t: string)
    requires t == [] || !IsWs(t[0])
    ensures Tight(TrimEnd(t))
  {
    var r := TrimEnd(t);
    if r != [] {
      assert r[0] == t[0];
    }
  }

  lemma TrimStartBlank(s: string)
    ensures TrimStart(s) == [] <==> AllWs(s)
  {
    var r := TrimStart(s);
    if r != [] {
      assert r[0] == s[|s| - |r|];
    }
  }

  lemma TrimEndBlank(s: string)
    ensures TrimEnd(s) == [] <==> AllWs(s)
  {
    var r := TrimEnd(s);
    if r != [] {
      assert r[|r| - 1] == s[|r| - 1];
    }
  }

  /** The strings of `xs` with `sep` between neighbours (`Array.prototype.join`). */
  function JoinWith(xs: seq<string>, sep: string): (r: string)
    ensures xs == [] ==> r == []
    ensures |xs| == 1 ==> r == xs[0]
    ensures |xs| > 0 ==> StartsWith(r, xs[0])
  {
    if |xs| == 0 then []
    else if |xs| == 1 then xs[0]
    else xs[0] + sep + JoinWith(xs[1..], sep)
  }

  /** `f` applied to every element, in order. */
  function Map<A, B>(f: A -> B, xs: seq<A>): (r: seq<B>)
    ensures |r| == |xs| && forall k :: 0 <= k < |xs| ==> r[k] == f(xs[k])
  {
    if xs == [] then [] else Map(f, xs[..|xs| - 1]) + [f(xs[|xs| - 1])]
  }

  lemma MapSnoc<A, B>(f: A -> B, xs: seq<A>, k: nat)
    requires k < |xs|
    ensures Map(f, xs[..k + 1]) == Map(f, xs[..k]) + [f(xs[k])]
  {
    assert xs[..k + 1][..k] == xs[..k];
  }

  /** Joining one more string adds the separator and that string at the end. */
  lemma {:induction false} JoinSnoc(xs: seq<string>, x: string, sep: string)
    requires xs != []
    ensures JoinWith(xs + [x], sep) == JoinWith(xs, sep) + sep + x
    decreases |xs|
  {
    if |xs| > 1 {
      assert (xs + [x])[1..] == xs[1..] + [x];
      JoinSnoc(xs[1..], x, sep);
      ConcatAssoc(xs[0] + sep, JoinWith(xs[1..], sep) + sep, x);
    } else {
      assert xs + [x] == [xs[0], x];
      assert [xs[0], x][1..] == [x];
    }
  }

  lemma TrimStartOfTight(s: string)
    requires s == [] || !IsWs(s[0])
    ensures TrimStart(s) == s
  {
  }

  lemma TrimEndOfTight(s: string)
    requires s == [] || !IsWs(s[|s| - 1])
    ensures TrimEnd(s) == s
  {
  }

  /** Trimming a string that already has no whitespace at its ends changes nothing. */
  lemma TrimOfTight(s: string)
    requires Tight(s)
    ensures Trim(s) == s
  {
    TrimStartOfTight(s);
    TrimEndOfTight(s);
  }

  /** Trimming a space off the front of a string with no whitespace at
      its ends. */
  lemma TrimLeadingSpace(j: string)
    requires Tight(j)
    ensures Trim(" " + j) == j
  {
    TrimStartOfTight(j);
    TrimEndOfTight(j);
    assert (" " + j)[1..] == j;
  }

  /* Small facts about concatenation, kept apart so that the proofs using
     them do not have to rediscover them in a large context. */

  lemma ConcatAssoc<T>(a: seq<T>, b: seq<T>, c: seq<T>)
    ensures a + (b + c) == (a + b) + c
  {
  }

  lemma AppendTail<T>(p: seq<T>, q: seq<T>)
    requires p != []
    ensures (p + q)[0] == p[0] && (p + q)[1..] == p[1..] + q
  {
  }

  lemma AppendEmpty<T>(p: seq<T>, q: seq<T>)
    ensures [] + q == q && p + [] == p
  {
  }

  lemma ConsSplit<T>(p: seq<T>, q: seq<T>)
    requires p != []
    ensures p == [p[0]] + p[1..] && p + q == [p[0]] + (p[1..] + q)
  {
  }

  lemma SplitAt<T>(s: seq<T>, n: nat)
    requires n <= |s|
    ensures s == s[..n] + s[n..]
  {
  }

  /** Trailing whitespace of `a + b` lies inside `b` as soon as `b` has text. */
  lemma {:induction false} TrimEndAppend(a: string, b: string)
    requires HasText(b)
    ensures TrimEnd(a + b) == a + TrimEnd(b)
    decreases |b|
  {
    var i :| 0 <= i < |b| && !IsWs(b[i]);
    if IsWs(b[|b| - 1]) {
      assert (a + b)[..|a + b| - 1] == a + b[..|b| - 1];
      assert b[..|b| - 1][i] == b[i];
      TrimEndAppend(a, b[..|b| - 1]);
    }
  }
}
